=== FILE: README.md ===
# hessfree in Dafny: the control logic of a Hessian-Free trainer

This project models the discrete control logic of the Go package `hessfree`,
an implementation of Hessian-Free optimisation after Martens (2010). For each
mini-batch the trainer asks a learner for a quadratic model of the cost,
minimises that model with linear conjugate gradient (CG), keeps backtracking
checkpoints on a geometric schedule, picks the checkpoint with the lowest true
cost, and lets a damping wrapper adapt its Tikhonov coefficient.

Floating-point numbers are `real`. The objective the wrapped learner produces
is a datatype of four total functions (`Objectives.Objective`): true cost,
quadratic value, quadratic gradient and curvature product, each taking a
delta and a sample set. A sample set is known only by its slice
`(start, len)` of the shuffled epoch. A delta (`ParamDelta.Delta`) maps a
parameter identity to a vector of reals. An absent key, or an index past the
end of a vector, reads as zero. Sums over a delta visit keys in ascending
order.

Modules, leaves first:

- `Numeric`: Go's `int()` truncation, `math.Max`, real powers, and a
  `Quotient` type for Go's float division by zero (±Inf, NaN). NaN compares
  false with everything.
- `ParamDelta`: vector algebra on deltas (`AddScaled`, `SubScaled`, `Scale`,
  `Dot`, `MagSquared`) and the zero delta over the learner's parameters.
- `Objectives`: the abstract objective and sample sets.
- `TrainerConfig`: the trainer's fields and the defaults for zero fields.
- `MiniBatches`: the slicing of one epoch into mini-batches.
- `Convergence`: the windowed relative-progress test.
- `Backtracking`: the exponent that moves the checkpoint threshold
  `int(rate^count)` past the iterations done.
- `Damping`: `DampingLearner` and `dampedObjective`.
- `CgSolver`: solver state, initialisation, the CG update, `Step`, `Best`,
  and the bookkeeping invariant `Consistent`.
- `SolverProperties`: lemmas relating several solver operations.
- `Training`: one epoch of the trainer's loop, built from the above.

The model follows the code where it departs from the design of Martens
(2010):

- The damped penalty is scaled by the mini-batch size `s.Len()` alone
  (learner.go:94, 106, 120). The coefficient carried by a damped objective
  never enters it (`Damping.DampedQuadIgnoresCoeff`).
- `Adjust` evaluates the "real" cost at the empty delta, exactly like the
  centre cost (learner.go:75-76). The trust numerator is therefore always
  zero. The ratio is 0 whenever the quadratic value differs from the centre
  cost, so damping rises by half. It is 0/0 (NaN) otherwise, and damping stays.
  Over an epoch a non-negative coefficient never decreases (`Training.TrainEpoch`).
- The next mini-batch is warm-started from the solution CG stopped at, not
  from the checkpoint that was chosen (trainer.go:83-84).

## Model

| member | source | states |
|---|---|---|
| MiniBatches.Batches | trainer.go:61-66 | The slices start at 0 and end at the sample count. Each starts where the previous one ends, at `j * batchSize`. Every slice but the last has exactly `batchSize` samples; the last is non-empty and no larger. There are none exactly when there are no samples. |
| MiniBatches.BatchesPartition | trainer.go:61-66 | Every sample index in `[0, len)` lies in exactly one mini-batch. |
| TrainerConfig.ZeroConfigTakesDefaults | trainer.go:10-15 | Zero fields run with minK 10, kScale 0.1, epsilon 0.0005 and backtrack rate 1.3. |
| ParamDelta.ZeroDelta | trainer.go:239-245 | The zero delta has one key per learner parameter, and every entry is zero. |
| ParamDelta.ZeroDeltaSizes | trainer.go:239-245 | Each parameter's zero vector has that parameter's length. |
| CgSolver.NewSolver | trainer.go:72-77 | A fresh solver holds the warm start as its solution. It has no residual, no checkpoints and no quadratic values. |
| CgSolver.InitializeIfNeeded | trainer.go:173-189 | A carried-over solution is kept; otherwise the solution is the zero delta. With no residual yet, the residual is minus the quadratic gradient at the solution. The direction is a copy of it, the cached squared length is its `MagSquared`, and the start objective is the true cost at the empty delta. The curvature product is taken along the direction. An existing residual leaves everything unchanged. The checkpoints and quadratic values are never touched. |
| SolverProperties.InitializeOnce | trainer.go:173-189 | A second initialisation changes nothing. |
| CgSolver.CgVectorUpdate | trainer.go:124-135 | The curvature p·Hp is computed once and passed in. The step size α = \|r\|²/(p·Hp) satisfies α·(p·Hp) = \|r\|², and β = \|r_new\|²/\|r\|². The solution becomes x + α·p and the residual r − α·Hp. The cached squared length is the new residual's, and the direction becomes r_new + β·p. |
| CgSolver.CgVectorUpdateEntries | trainer.go:124-135 | The same update for every key and index: solution entry x + α·p, residual entry r − α·Hp, direction entry β·p + r_new. |
| CgSolver.CgUpdate | trainer.go:124-140 | A continuing step stores the CG update. It takes the curvature product along the new direction at the new solution and appends that call's quadratic value. It clears the just-backtracked flag and leaves the checkpoints, the count and the start objective alone. |
| CgSolver.UpdateBacktracking | trainer.go:219-237 | The threshold is `int(rate^count)`, with rate 1.3 when zero. If it exceeds the iterations done, nothing changes. Otherwise the solution and its true cost are appended as a checkpoint and the flag is set. The count advances to the first exponent whose threshold exceeds the iterations done: every exponent it passes over has a threshold at most that number. The count never decreases, and every other field is unchanged. |
| Backtracking.NextExponent | trainer.go:228-230 | The loop stops at the first exponent from `count` on whose threshold exceeds the iterations done. Every exponent it passes has a threshold at most that. For a rate above 1 the loop terminates. |
| Convergence.Converging | trainer.go:191-216 | The test fires only with at least two quadratic values, the last not above the start objective, and a window `k = int(max(minK, kScale·n))` with 0 ≤ k < n. It never fires while minK ≥ n. When the last value equals the start, it fires exactly when the look-back value lies above the start: the zero denominator makes the ratio −∞ then, and +∞ or NaN otherwise. |
| Convergence.ConvergingRelativeProgress | trainer.go:211-215 | When the last value is below the start objective, the test fires exactly when (current − previous)/current < k·epsilon. |
| Convergence.DefaultWindowNeverEarly | trainer.go:198-209 | With minK left at zero, the test never fires on ten or fewer quadratic values. |
| CgSolver.Step | trainer.go:116-151 | The solver is first initialised. If p·Hp = 0 or \|r\|² = 0, the step returns false and the state is the initialised one. Otherwise the CG update `CgUpdate` is applied, so exactly one quadratic value is appended and the history before it is kept. The step returns true exactly when the convergence test does not fire. Only then is `UpdateBacktracking` applied to the updated state, which may add a checkpoint. Afterwards the threshold exceeds the iterations done. The backtrack count never decreases. The invariant `Consistent` is preserved. |
| CgSolver.FirstMin | trainer.go:162-169 | The scan returns an index of a least value, and no earlier index holds a value as small. |
| CgSolver.Best | trainer.go:155-171 | If no checkpoint was just taken, the solution and its true cost are appended first, and the flag is set. A set flag leaves the state unchanged. The result is a recorded checkpoint at the earliest index of a least value. There is none only when nothing was recorded. |
| SolverProperties.BestTwice | trainer.go:156-161 | A second `Best` records nothing and returns the same delta. |
| SolverProperties.BestNoWorseThanCheckpoints | trainer.go:155-171 | On a consistent, initialised solver, `Best` returns a delta. Its true cost is at most the current solution's and at most every checkpoint's. |
| SolverProperties.BestKeepsConsistent | trainer.go:156-161 | `Best` preserves `Consistent`. |
| Training.RunSolver | trainer.go:78-82 | The run ends with the last step's answer. When that answer is false, CG is exhausted (p·Hp = 0 or \|r\|² = 0) or the convergence test fires on the final history; otherwise the fuel ran out. Repeated steps leave the solver initialised. They extend the quadratic history without rewriting it, never lower the backtrack count, and preserve `Consistent`. |
| Training.TrainBatch | trainer.go:72-85 | The learner remembers the mini-batch's wrapped objective. The chosen checkpoint costs no more than the solution CG stopped at. The coefficient (1 when it was 0) is multiplied by 3/2 when the chosen delta's quadratic value differs from the centre cost, and is unchanged otherwise. |
| Training.TrainEpoch | trainer.go:61-88 | Over one epoch's mini-batches, a non-negative damping coefficient never decreases. After at least one mini-batch it is positive and a warm start exists. With no samples nothing changes. |
| Damping.MakeObjective | learner.go:62-71 | The coefficient becomes 1 only when it is 0, and is otherwise unchanged. The inner objective is remembered. The damped objective wraps it with the current coefficient. |
| Damping.UpdateCoeff | learner.go:79-84 | Below 0.25, including −∞, the coefficient is multiplied by 3/2. Above 0.75, including +∞, it is multiplied by 2/3. Otherwise it is unchanged. A NaN ratio changes nothing, and positivity is kept. |
| Damping.Adjust | learner.go:73-85 | Adjust keeps the remembered objective. Because the trust numerator is zero, a quadratic value that differs from the centre cost always multiplies the coefficient by 3/2. An equal one leaves it unchanged. |
| Damping.DampedQuad | learner.go:92-101 | The damped quadratic value is the wrapped one plus s.Len() times the inner product of the delta with itself. So it is never below the wrapped value, and equals it for an all-zero delta. |
| Damping.DampedQuadIgnoresCoeff | learner.go:92-101 | Two damped objectives differing only in their coefficient give the same quadratic value. |
| Damping.DampedQuadGrad | learner.go:103-115 | Each wrapped-gradient entry at a key and index of the delta gains 2·s.Len()·x. Keys absent from the delta and indices past a delta vector are unchanged, and no key is added. The wrapped result must cover the delta. |
| Damping.DampedQuadHessian | learner.go:117-129 | The wrapped curvature product gets the same 2·s.Len()·x correction on the direction's entries, and the quadratic value passes through. Keys of the wrapped product absent from the direction, and indices past the end of a direction vector, keep their wrapped values. A zero direction returns the wrapped product unchanged. |
| Damping.AsObjective | learner.go:92-133 | Seen as an objective, the damped objective reports exactly the wrapped true cost. Its quadratic value is `DampedQuad`. Wherever the wrapped results cover the delta, its gradient is `DampedQuadGrad` and its curvature call is `DampedQuadHessian`. The quadratic value from the curvature call is the wrapped one. |

## Left out

- linearizer.go is not part of this model. It is forward- and reverse-mode plumbing over the external `autofunc` automatic-differentiation library. The curvature products it computes are the abstract `quadHessian` field.
- param_delta.go is not part of this model. It holds key-preserving copies into foreign vector types.
- The file that defines `ConstParamDelta`'s methods (`dot`, `addDelta`, `scale`, `magSquared`, `copy`) is not part of this model. `ParamDelta` models them from their use in trainer.go. Go updates deltas in place, which is not modelled. The solution's in-place update is observable only after `Best` has returned, and nothing reads the checkpoints then.
- IEEE-754 is modelled only at the two divisions whose zero denominators matter: the trust ratio and the convergence ratio. Rounding, overflow and NaN inputs are not modelled.
- `UI` logging, shuffling, and sample storage are not modelled.
- The stop request (`ShouldStop`, trainer.go:67-69 and 79-81) is not modelled. In Go it returns from `Train` at once, without `Best` or `Adjust`.
- Training.TrainBatch: the trainer's learner is modelled as a `DampingLearner` around an abstract wrapped learner, whose objective per mini-batch is a parameter. `Train` over an arbitrary `Learner` (trainer.go:31) is not modelled, so the damping-coefficient promises of `TrainBatch` and `Training.TrainEpoch` apply to that configuration only.
- Training.RunSolver: its `fuel` is only the iteration bound a terminating model needs. A solver that has not converged within it is cut short, and the mini-batch then goes on to `Best` and `Adjust` like any other. Such a run ends with `more` true. A run ending with `more` false stopped for the reason Go's loop stops.
- The endless epoch loop of `Train` (trainer.go:56-90) is not modelled. `Training.TrainEpoch` models one epoch. The wrapped learner's objective for each mini-batch is a parameter, because committing a step (`delta.AddToVars()`, learner.go:77) changes external parameter values.
- `Parameters()` delegation (learner.go:58-60) is not modelled; the solver takes the parameter list as input.
- The call sites do not match the definitions for `QuadHessian` (3 arguments at trainer.go:138, 2 at learner.go:117) and `Adjust` (3 arguments at trainer.go:85, 2 declared). The objective's curvature call takes direction, point and samples and returns a product and a quadratic value. `Adjust` receives the chosen delta.
- CgSolver.Step: requires the configuration to keep the convergence window non-negative, and the backtrack rate to be zero or above 1 as documented at trainer.go:47. With a negative window Go would index out of range. With a rate in [−1, 1] the checkpoint loop would not end. Rates below −1 are outside the documented range and are not modelled.
- Convergence.Converging: requires that the look-back index lies inside the history whenever the test reaches it; otherwise Go panics.
- MiniBatches.Batches: requires a positive batch size when there are samples; otherwise the Go loop never ends.
- Damping.DampedQuadGrad: requires the wrapped gradient to have an entry of at least the delta's length for every delta key; Go would panic otherwise. Damping.AsObjective uses the same correction without that requirement, as a total function, and agrees with `DampedQuadGrad` and `DampedQuadHessian` wherever the requirement holds.
- SolverProperties.BestNoWorseThanCheckpoints: requires an initialised solution. The trainer always steps before choosing, so `Best` never sees a nil solution.

=== FILE: backtracking.dfy ===
/**
 The geometric checkpoint schedule: a checkpoint is due once the number of
 CG iterations reaches `int(rate^count)`, after which `count` is advanced
 until that threshold lies beyond the iterations done.
 */
module Backtracking {

  import opened Numeric

  /** Go's `int(math.Pow(rate, count))`. */
  function Threshold(rate: real, count: nat): int {
    Trunc(Pow(rate, count))
  }

  /** An exponent from which every threshold exceeds `done` (Bernoulli's inequality). */
  function ExponentBound(rate: real, done: nat): nat
    requires rate > 1.0
  {
    QuotientNonNegative(done as real, rate - 1.0);
    ((done as real) / (rate - 1.0)).Floor + 1
  }

  lemma QuotientNonNegative(a: real, b: real)
    requires a >= 0.0 && b > 0.0
    ensures a / b >= 0.0
  {
  }

  lemma BoundTimesStep(rate: real, done: nat)
    requires rate > 1.0
    ensures (ExponentBound(rate, done) as real) * (rate - 1.0) > done as real
  {
    AboveQuotient(ExponentBound(rate, done) as real, rate - 1.0, done as real);
  }

  lemma ThresholdPastBound(rate: real, done: nat, n: nat)
    requires rate > 1.0 && n >= ExponentBound(rate, done)
    ensures Threshold(rate, n) > done
  {
    var b := ExponentBound(rate, done);
    BoundTimesStep(rate, done);
    PowAtLeastLinear(rate, b);
    PowMonotone(rate, b, n);
    assert Pow(rate, n) >= (done as real) + 1.0;
  }

  /**
   The exponent the checkpoint loop stops at: the first one from `count` on
   whose threshold exceeds `done`.
   */
  function NextExponent(rate: real, count: nat, done: nat): (c: nat)
    requires rate > 1.0
    ensures count <= c
    ensures Threshold(rate, c) > done
    ensures forall j :: count <= j < c ==> Threshold(rate, j) <= done
    decreases ExponentBound(rate, done) - count
  {
    if Threshold(rate, count) > done then count
    else
      assert count < ExponentBound(rate, done) by {
        if count >= ExponentBound(rate, done) {
          ThresholdPastBound(rate, done, count);
        }
      }
      NextExponent(rate, count + 1, done)
  }
}

=== FILE: batches.dfy ===
/**
 One epoch's mini-batches: the shuffled sample set cut into consecutive
 slices of the configured size, the last one possibly shorter.
 */
module MiniBatches {

  import opened Objectives

  /** Sample `x` lies in batch `b`. */
  predicate InBatch(b: SampleSet, x: int) {
    b.start <= x < b.start + b.len
  }

  /** The slices taken from offset `i` on, advancing by `batchSize` each time. */
  function BatchesFrom(total: nat, batchSize: nat, i: nat): (b: seq<SampleSet>)
    requires batchSize > 0
    ensures |b| > 0 ==> b[0].start == i
    ensures forall j :: 0 <= j < |b| - 1 ==> b[j + 1].start == b[j].start + batchSize
    ensures forall j :: 0 <= j < |b| ==> 0 < b[j].len <= batchSize
    ensures forall j :: 0 <= j < |b| - 1 ==> b[j].len == batchSize
    ensures i < total ==> |b| > 0 && b[|b| - 1].start + b[|b| - 1].len == total
    ensures i >= total ==> |b| == 0
    decreases total - i
  {
    if i >= total then []
    else
      var n := if batchSize > total - i then total - i else batchSize;
      [SampleSet(i, n)] + BatchesFrom(total, batchSize, i + batchSize)
  }

  /** Slices that start at 0 and advance by `batchSize` start at multiples of it. */
  lemma {:induction false} StartsAreMultiples(b: seq<SampleSet>, batchSize: int, j: nat)
    requires j < |b| && b[0].start == 0
    requires forall m :: 0 <= m < |b| - 1 ==> b[m + 1].start == b[m].start + batchSize
    ensures b[j].start == j * batchSize
  {
    if j > 0 {
      StartsAreMultiples(b, batchSize, j - 1);
      assert j * batchSize == (j - 1) * batchSize + batchSize;
    }
  }

  /**
   The batches of one epoch over `total` samples. They start at 0, each
   begins where the previous one ended, every one but the last is full,
   the last is non-empty and no larger, and the last ends at `total`.
   A non-positive batch size is only harmless when there are no samples.
   */
  function Batches(total: nat, batchSize: int): (b: seq<SampleSet>)
    requires total == 0 || batchSize > 0
    ensures total == 0 <==> |b| == 0
    ensures |b| > 0 ==> b[0].start == 0 && b[|b| - 1].start + b[|b| - 1].len == total
    ensures forall j :: 0 <= j < |b| - 1 ==> b[j + 1].start == b[j].start + b[j].len
    ensures forall j :: 0 <= j < |b| - 1 ==> b[j].len == batchSize
    ensures forall j :: 0 <= j < |b| ==> 0 < b[j].len <= batchSize
    ensures forall j :: 0 <= j < |b| ==> b[j].start == j * batchSize
  {
    if total == 0 then []
    else
      var b := BatchesFrom(total, batchSize, 0);
      assert forall j :: 0 <= j < |b| ==> b[j].start == j * batchSize by {
        forall j | 0 <= j < |b| ensures b[j].start == j * batchSize {
          StartsAreMultiples(b, batchSize, j);
        }
      }
      b
  }

  /**
   `b` tiles [0, total): it starts at 0, each slice is non-empty and begins
   where the previous one ended, and the last ends at `total`.
   */
  predicate Tiles(b: seq<SampleSet>, total: nat) {
    && (|b| == 0 <==> total == 0)
    && (|b| > 0 ==> b[0].start == 0 && b[|b| - 1].start + b[|b| - 1].len == total)
    && (forall j :: 0 <= j < |b| ==> b[j].len > 0)
    && (forall j :: 0 <= j < |b| - 1 ==> b[j + 1].start == b[j].start + b[j].len)
  }

  lemma {:induction false} SlicesOrdered(b: seq<SampleSet>, total: nat, j: nat, j': nat)
    requires Tiles(b, total) && j < j' < |b|
    ensures b[j].start + b[j].len <= b[j'].start
    decreases j' - j
  {
    if j + 1 < j' {
      SlicesOrdered(b, total, j + 1, j');
    }
  }

  lemma {:induction false} CoveredFrom(b: seq<SampleSet>, total: nat, x: int, j: nat)
    requires Tiles(b, total) && j < |b| && b[j].start <= x < total
    ensures exists j' :: j <= j' < |b| && InBatch(b[j'], x)
    decreases |b| - j
  {
    if !InBatch(b[j], x) {
      CoveredFrom(b, total, x, j + 1);
    }
  }

  /** Tiling slices partition the samples: each one lies in exactly one slice. */
  lemma TilesPartition(b: seq<SampleSet>, total: nat, x: int)
    requires Tiles(b, total) && 0 <= x < total
    ensures exists j :: 0 <= j < |b| && InBatch(b[j], x)
    ensures forall j, j' :: 0 <= j < |b| && 0 <= j' < |b| && InBatch(b[j], x) && InBatch(b[j'], x) ==> j == j'
  {
    CoveredFrom(b, total, x, 0);
    forall j, j' | 0 <= j < |b| && 0 <= j' < |b| && InBatch(b[j], x) && InBatch(b[j'], x) ensures j == j' {
      if j < j' {
        SlicesOrdered(b, total, j, j');
      } else if j' < j {
        SlicesOrdered(b, total, j', j);
      }
    }
  }

  /**
   One epoch's mini-batches partition the sample set: every sample falls in
   exactly one batch.
   */
  lemma BatchesPartition(total: nat, batchSize: int, x: int)
    requires (total == 0 || batchSize > 0) && 0 <= x < total
    ensures var b := Batches(total, batchSize);
            (exists j :: 0 <= j < |b| && InBatch(b[j], x))
            && forall j, j' :: 0 <= j < |b| && 0 <= j' < |b| && InBatch(b[j], x) && InBatch(b[j'], x) ==> j == j'
  {
    TilesPartition(Batches(total, batchSize), total, x);
  }
}

=== FILE: config.dfy ===
/** The Trainer's configuration and the defaults substituted for zero fields. */
module TrainerConfig {

  import opened Numeric

  /** Defaults from Martens (2010). */
  const DefaultMinK: real := 10.0
  const DefaultKScale: real := 0.1
  const DefaultEpsilon: real := 0.0005
  const DefaultBacktrackRate: real := 1.3

  /**
   `minK`, `kScale` and `epsilon` are the relative-progress convergence
   criteria; `backtrackRate` spaces the checkpoints geometrically. A field
   left at zero means "use the default".
   */
  datatype Config = Config(batchSize: int, minK: real, kScale: real, epsilon: real, backtrackRate: real)

  function OrDefault(x: real, default: real): (r: real)
    ensures x != 0.0 ==> r == x
    ensures x == 0.0 ==> r == default
  {
    if x == 0.0 then default else x
  }

  function MinK(c: Config): real { OrDefault(c.minK, DefaultMinK) }

  function KScale(c: Config): real { OrDefault(c.kScale, DefaultKScale) }

  function Epsilon(c: Config): real { OrDefault(c.epsilon, DefaultEpsilon) }

  function BacktrackRate(c: Config): real { OrDefault(c.backtrackRate, DefaultBacktrackRate) }

  /** A configuration left at zero runs with every default of Martens (2010). */
  lemma ZeroConfigTakesDefaults(batchSize: int)
    ensures var c := Config(batchSize, 0.0, 0.0, 0.0, 0.0);
            && MinK(c) == 10.0 && KScale(c) == 0.1 && Epsilon(c) == 0.0005 && BacktrackRate(c) == 1.3
            && RateTerminates(c) && WindowNonNegative(c)
  {
  }

  /**
   The documented rates: above one, or zero for the default 1.3. The
   checkpoint loop would never end for a rate in [-1, 1].
   */
  predicate RateTerminates(c: Config) {
    c.backtrackRate == 0.0 || c.backtrackRate > 1.0
  }

  /**
   The convergence window never becomes negative, so the look-back index
   stays inside the history: either the fixed minimum is above -1 or the
   scaled part is non-negative. Both hold whenever the fields are zero or
   positive.
   */
  predicate WindowNonNegative(c: Config) {
    c.minK > -1.0 || c.kScale >= 0.0
  }
}

=== FILE: convergence.dfy ===
/**
 The windowed relative-progress test of Martens (2010) that ends a CG run
 once the last `k` iterations improved the quadratic model by too small a
 fraction of the total improvement.
 */
module Convergence {

  import opened Numeric
  import opened TrainerConfig

  /** The window `k = int(max(minK, kScale * n))` after `n` CG iterations. */
  function WindowSize(c: Config, n: nat): int {
    Trunc(Max(MinK(c), KScale(c) * (n as real)))
  }

  /**
   The test reaches the look-back index only when there are two values and
   the last is not above the start; the index is then inside the history
   exactly when the window is non-negative.
   */
  predicate LookBackInRange(c: Config, quadValues: seq<real>, start: real) {
    |quadValues| < 2 || quadValues[|quadValues| - 1] > start || WindowSize(c, |quadValues|) >= 0
  }

  lemma WindowNonNegativeAlways(c: Config, quadValues: seq<real>, start: real)
    requires WindowNonNegative(c)
    ensures LookBackInRange(c, quadValues, start)
  {
    if c.minK <= -1.0 {
      ProductNonNegative(KScale(c), |quadValues| as real);
    }
  }

  /**
   Whether CG has converged given the quadratic values so far and the true
   objective at the start of the run. When the last value equals the start
   the current improvement is zero: the quotient is then -Inf (the test
   fires) exactly when the look-back value lies above the start, and +Inf
   or NaN (it does not) otherwise.
   */
  function Converging(c: Config, quadValues: seq<real>, start: real): (r: bool)
    requires LookBackInRange(c, quadValues, start)
    ensures r ==> |quadValues| >= 2
    ensures r ==> quadValues[|quadValues| - 1] <= start
    ensures r ==> 0 <= WindowSize(c, |quadValues|) < |quadValues|
    ensures MinK(c) >= |quadValues| as real ==> !r
    ensures r && quadValues[|quadValues| - 1] == start ==>
              quadValues[|quadValues| - 1 - WindowSize(c, |quadValues|)] > start
    ensures |quadValues| >= 2 && quadValues[|quadValues| - 1] == start && 0 <= WindowSize(c, |quadValues|) < |quadValues| ==>
              (r <==> quadValues[|quadValues| - 1 - WindowSize(c, |quadValues|)] > start)
  {
    var n := |quadValues|;
    if n < 2 || quadValues[n - 1] > start then false
    else
      var k := WindowSize(c, n);
      if k >= n then false
      else
        var currentImprovement := quadValues[n - 1] - start;
        var oldImprovement := quadValues[n - 1 - k] - start;
        Below(Divide(currentImprovement - oldImprovement, currentImprovement), (k as real) * Epsilon(c))
  }

  /**
   Away from the degenerate case, the test fires exactly when the relative
   improvement over the window is below `k * epsilon`.
   */
  lemma ConvergingRelativeProgress(c: Config, quadValues: seq<real>, start: real)
    requires LookBackInRange(c, quadValues, start)
    requires |quadValues| >= 2 && quadValues[|quadValues| - 1] < start
    requires 0 <= WindowSize(c, |quadValues|) < |quadValues|
    ensures var n := |quadValues|;
            var k := WindowSize(c, n);
            var current := quadValues[n - 1] - start;
            var previous := quadValues[n - 1 - k] - start;
            Converging(c, quadValues, start) <==> (current - previous) / current < (k as real) * Epsilon(c)
  {
  }

  /**
   With the default window (minK left at zero) the test never fires before
   eleven quadratic values exist, whatever their trend.
   */
  lemma DefaultWindowNeverEarly(c: Config, quadValues: seq<real>, start: real)
    requires c.minK == 0.0 && |quadValues| <= 10
    ensures LookBackInRange(c, quadValues, start)
    ensures !Converging(c, quadValues, start)
  {
  }
}

=== FILE: damping.dfy ===
/**
 The damping decorators of Martens (2010): a learner wrapper that owns the
 damping coefficient and adapts it after each mini-batch, and an objective
 wrapper that adds a Tikhonov penalty to the quadratic model.

 Two details follow the code rather than the textbook algorithm. The
 penalty is scaled by the mini-batch size alone; the coefficient a damped
 objective carries never enters it. And the "real" cost after the step is
 evaluated at the empty delta, like the centre cost, so the numerator of the
 trust ratio is always zero.
 */
module Damping {

  import opened Wrappers
  import opened Numeric
  import opened ParamDelta
  import opened Objectives

  const DefaultDampingCoeff: real := 1.0

  /** An objective wrapped with the damping penalty, remembering its coefficient. */
  datatype DampedObjective = DampedObjective(wrapped: Objective, coeff: real)

  /**
   The damping state of a learner: the coefficient, which persists across
   mini-batches, and the undamped objective of the current mini-batch.
   */
  datatype DampingLearner = DampingLearner(dampingCoeff: real, lastObjective: Option<Objective>)

  /**
   Starts a mini-batch. `inner` is the objective the wrapped learner
   produced, centred at the current parameters.
   */
  function MakeObjective(l: DampingLearner, inner: Objective): (r: (DampingLearner, DampedObjective))
    ensures l.dampingCoeff == 0.0 ==> r.0.dampingCoeff == DefaultDampingCoeff
    ensures l.dampingCoeff != 0.0 ==> r.0.dampingCoeff == l.dampingCoeff
    ensures r.0.lastObjective == Some(inner)
    ensures r.1 == DampedObjective(inner, r.0.dampingCoeff)
  {
    var coeff := if l.dampingCoeff == 0.0 then DefaultDampingCoeff else l.dampingCoeff;
    (DampingLearner(coeff, Some(inner)), DampedObjective(inner, coeff))
  }

  /**
   The threshold rule: poor agreement between predicted and actual
   reduction raises damping, good agreement lowers it. An infinite ratio
   compares like any value on its side; a NaN ratio passes neither
   comparison and leaves the coefficient alone.
   */
  function UpdateCoeff(coeff: real, trust: Quotient): (r: real)
    ensures trust.Finite? && trust.value < 0.25 ==> r == coeff * 3.0 / 2.0
    ensures trust.Finite? && trust.value > 0.75 ==> r == coeff * 2.0 / 3.0
    ensures trust.Finite? && 0.25 <= trust.value <= 0.75 ==> r == coeff
    ensures trust == NegInf ==> r == coeff * 3.0 / 2.0
    ensures trust == PosInf ==> r == coeff * 2.0 / 3.0
    ensures trust == NaN ==> r == coeff
    ensures coeff > 0.0 ==> r > 0.0
  {
    if Below(trust, 0.25) then coeff * (3.0 / 2.0)
    else if Above(trust, 0.75) then coeff * (2.0 / 3.0)
    else coeff
  }

  /**
   Ends a mini-batch. Committing `delta` to the live parameters is outside
   the model; only the coefficient changes. Because the cost "after the
   step" is taken at the empty delta, the ratio is 0 whenever the quadratic
   value at `delta` differs from the centre cost (so damping always rises by
   half), and 0/0 otherwise (so damping stays).
   */
  function Adjust(l: DampingLearner, delta: Delta, s: SampleSet): (r: DampingLearner)
    requires l.lastObjective.Some?
    ensures r.lastObjective == l.lastObjective
    ensures var o := l.lastObjective.value;
            o.quad(delta, s) != o.objective(map[], s) ==> r.dampingCoeff == l.dampingCoeff * 3.0 / 2.0
    ensures var o := l.lastObjective.value;
            o.quad(delta, s) == o.objective(map[], s) ==> r.dampingCoeff == l.dampingCoeff
  {
    var o := l.lastObjective.value;
    var quadOffset := o.quad(delta, s);
    var centerVal := o.objective(map[], s);
    var realOffset := o.objective(map[], s);
    var trust := Divide(realOffset - centerVal, quadOffset - centerVal);
    l.(dampingCoeff := UpdateCoeff(l.dampingCoeff, trust))
  }

  /**
   `res` plus `scaler` times `delta` on the entries the two share. Keys of
   `res` absent from `delta`, and indices past the end of a `delta` vector,
   keep their values; keys only in `delta` are not added.
   */
  function AddPenaltyGradient(res: Delta, delta: Delta, scaler: real): (r: Delta)
    ensures r.Keys == res.Keys
    ensures forall k :: k in r ==> |r[k]| == |res[k]|
    ensures forall k, i :: k in res && 0 <= i < |res[k]| ==> r[k][i] == res[k][i] + scaler * Get(delta, k, i)
  {
    map k | k in res :: seq(|res[k]|, i => Get(res, k, i) + scaler * Get(delta, k, i))
  }

  /**
   The wrapped result has an entry for every entry of `delta`: writing the
   penalty term into a missing key or past the end of a vector would fail.
   */
  predicate Covers(res: Delta, delta: Delta) {
    forall k :: k in delta && |delta[k]| > 0 ==> k in res && |delta[k]| <= |res[k]|
  }

  /**
   Quadratic model plus the penalty: the batch size times the sum of squared
   entries, that is, times the inner product of `delta` with itself.
   */
  function DampedQuad(d: DampedObjective, delta: Delta, s: SampleSet): (r: real)
    ensures r == d.wrapped.quad(delta, s) + (s.len as real) * Dot(delta, delta)
    ensures r >= d.wrapped.quad(delta, s)
    ensures IsZero(delta) ==> r == d.wrapped.quad(delta, s)
  {
    MagSquaredIsSelfDot(delta);
    MagSquaredBounds(delta);
    Numeric.ProductNonNegative(s.len as real, MagSquared(delta));
    d.wrapped.quad(delta, s) + (s.len as real) * MagSquared(delta)
  }

  /** Gradient of the damped model: the wrapped gradient plus twice the batch size times `delta`. */
  function DampedQuadGrad(d: DampedObjective, delta: Delta, s: SampleSet): (r: Delta)
    requires Covers(d.wrapped.quadGrad(delta, s), delta)
    ensures var w := d.wrapped.quadGrad(delta, s);
            r.Keys == w.Keys && (forall k :: k in w ==> |r[k]| == |w[k]|)
            && forall k :: k in w && k !in delta ==> r[k] == w[k]
    ensures var w := d.wrapped.quadGrad(delta, s);
            forall k, i :: k in delta && 0 <= i < |delta[k]| ==> r[k][i] == w[k][i] + (2 * s.len) as real * delta[k][i]
    ensures var w := d.wrapped.quadGrad(delta, s);
            forall k, i :: k in delta && k in w && |delta[k]| <= i < |w[k]| ==> r[k][i] == w[k][i]
  {
    var w := d.wrapped.quadGrad(delta, s);
    var r := AddPenaltyGradient(w, delta, (2 * s.len) as real);
    assert forall k :: k in w && k !in delta ==> r[k] == w[k] by {
      forall k | k in w && k !in delta ensures r[k] == w[k] {
        assert forall i :: 0 <= i < |w[k]| ==> r[k][i] == w[k][i];
      }
    }
    r
  }

  /**
   Curvature product of the damped model: the wrapped product along
   `direction`, plus twice the batch size times `direction`. The reported
   quadratic value passes through.
   */
  function DampedQuadHessian(d: DampedObjective, direction: Delta, point: Delta, s: SampleSet): (r: (Delta, real))
    requires Covers(d.wrapped.quadHessian(direction, point, s).0, direction)
    ensures var w := d.wrapped.quadHessian(direction, point, s);
            r.1 == w.1 && r.0.Keys == w.0.Keys && forall k :: k in w.0 ==> |r.0[k]| == |w.0[k]|
    ensures var w := d.wrapped.quadHessian(direction, point, s).0;
            forall k :: k in w && k !in direction ==> r.0[k] == w[k]
    ensures var w := d.wrapped.quadHessian(direction, point, s).0;
            forall k, i :: k in direction && 0 <= i < |direction[k]| ==> r.0[k][i] == w[k][i] + (2 * s.len) as real * direction[k][i]
    ensures var w := d.wrapped.quadHessian(direction, point, s).0;
            forall k, i :: k in direction && k in w && |direction[k]| <= i < |w[k]| ==> r.0[k][i] == w[k][i]
    ensures IsZero(direction) ==> r.0 == d.wrapped.quadHessian(direction, point, s).0
  {
    var w := d.wrapped.quadHessian(direction, point, s);
    var h := AddPenaltyGradient(w.0, direction, (2 * s.len) as real);
    assert forall k :: k in w.0 && k !in direction ==> h[k] == w.0[k] by {
      forall k | k in w.0 && k !in direction ensures h[k] == w.0[k] {
        assert forall i :: 0 <= i < |w.0[k]| ==> h[k][i] == w.0[k][i];
      }
    }
    assert IsZero(direction) ==> h == w.0 by {
      if IsZero(direction) {
        forall k | k in w.0 ensures h[k] == w.0[k] {
          assert forall i :: 0 <= i < |w.0[k]| ==> h[k][i] == w.0[k][i];
        }
      }
    }
    (h, w.1)
  }

  /**
   The damped objective seen through the Objective interface. The true
   cost passes through untouched; damping changes only the model that picks
   the step, whose value, gradient and curvature product are the damped
   ones wherever the wrapped results cover the delta.
   */
  function AsObjective(d: DampedObjective): (o: Objective)
    ensures forall delta, s :: o.objective(delta, s) == d.wrapped.objective(delta, s)
    ensures forall delta, s :: o.quad(delta, s) == DampedQuad(d, delta, s)
    ensures forall delta, s :: o.quad(delta, s) >= d.wrapped.quad(delta, s)
    ensures forall delta, s :: Covers(d.wrapped.quadGrad(delta, s), delta) ==>
              o.quadGrad(delta, s) == DampedQuadGrad(d, delta, s)
    ensures forall direction, point, s :: Covers(d.wrapped.quadHessian(direction, point, s).0, direction) ==>
              o.quadHessian(direction, point, s) == DampedQuadHessian(d, direction, point, s)
    ensures forall direction, point, s :: o.quadHessian(direction, point, s).1 == d.wrapped.quadHessian(direction, point, s).1
  {
    Objective(
      (delta, s) => d.wrapped.objective(delta, s),
      (delta, s) => DampedQuad(d, delta, s),
      (delta, s) => AddPenaltyGradient(d.wrapped.quadGrad(delta, s), delta, (2 * s.len) as real),
      (direction, point, s) =>
        var w := d.wrapped.quadHessian(direction, point, s);
        (AddPenaltyGradient(w.0, direction, (2 * s.len) as real), w.1))
  }

  /** The penalty ignores the coefficient: two damped objectives differing only in it agree. */
  lemma DampedQuadIgnoresCoeff(inner: Objective, c1: real, c2: real, delta: Delta, s: SampleSet)
    ensures DampedQuad(DampedObjective(inner, c1), delta, s) == DampedQuad(DampedObjective(inner, c2), delta, s)
  {
  }
}

=== FILE: numeric.dfy ===
/**
 The few pieces of floating-point behaviour the optimiser's control logic
 depends on, stated over Dafny's exact reals: Go's truncating integer
 conversion, division by zero in a comparison, and integer powers.
 */
module Numeric {

  function Max(a: real, b: real): (m: real)
    ensures m >= a && m >= b
    ensures m == a || m == b
  {
    if a >= b then a else b
  }

  /** Go's `int(x)`: the conversion truncates toward zero. */
  function Trunc(x: real): (r: int)
    ensures 0.0 <= x ==> 0 <= r && r as real <= x < r as real + 1.0
    ensures x < 0.0 ==> r <= 0 && r as real - 1.0 < x <= r as real
  {
    if x >= 0.0 then x.Floor else -((-x).Floor)
  }

  /**
   The outcome of a floating-point division. Only the cases a comparison
   can tell apart are kept: a finite quotient, the two infinities a non-zero
   numerator over zero yields, and the NaN of zero over zero.
   */
  datatype Quotient = Finite(value: real) | PosInf | NegInf | NaN

  function Divide(n: real, d: real): (q: Quotient)
    ensures q.Finite? <==> d != 0.0
    ensures q.Finite? ==> q.value * d == n
    ensures q == NaN <==> n == 0.0 && d == 0.0
  {
    if d != 0.0 then Finite(n / d)
    else if n > 0.0 then PosInf
    else if n < 0.0 then NegInf
    else NaN
  }

  /** `q < t` as a floating-point comparison: false for NaN. */
  predicate Below(q: Quotient, t: real) {
    match q
    case Finite(v) => v < t
    case NegInf => true
    case PosInf => false
    case NaN => false
  }

  /** `q > t` as a floating-point comparison: false for NaN. */
  predicate Above(q: Quotient, t: real) {
    match q
    case Finite(v) => v > t
    case NegInf => false
    case PosInf => true
    case NaN => false
  }

  /** `r` raised to the natural power `n`, as `math.Pow` computes it exactly. */
  function Pow(r: real, n: nat): real {
    if n == 0 then 1.0 else r * Pow(r, n - 1)
  }

  /** Bernoulli's inequality: a base of at least one grows at least linearly. */
  lemma {:induction false} PowAtLeastLinear(r: real, n: nat)
    requires r >= 1.0
    ensures Pow(r, n) >= 1.0 + (n as real) * (r - 1.0)
  {
    if n > 0 {
      PowAtLeastLinear(r, n - 1);
      var p := Pow(r, n - 1);
      var m := (n - 1) as real;
      var e := r - 1.0;
      var low := 1.0 + m * e;
      ProductNonNegative(r, p - low);
      ProductNonNegative(m * e, e);
      assert r * p >= r * low;
      assert r * low == (1.0 + e) * (1.0 + m * e);
      assert (1.0 + e) * (1.0 + m * e) == 1.0 + (m + 1.0) * e + (m * e) * e;
    }
  }

  lemma ProductPositive(a: real, b: real)
    requires a > 0.0 && b > 0.0
    ensures a * b > 0.0
  {
  }

  /** A value above `d / e` times a positive `e` is above `d`. */
  lemma AboveQuotient(b: real, e: real, d: real)
    requires e > 0.0 && b > d / e
    ensures b * e > d
  {
    var q := d / e;
    assert q * e == d;
    ProductPositive(b - q, e);
    assert (b - q) * e == b * e - q * e;
  }

  lemma ProductNonNegative(a: real, b: real)
    requires a >= 0.0 && b >= 0.0
    ensures a * b >= 0.0
  {
  }

  /** Multiplying a non-negative value by a factor of at least one does not shrink it. */
  lemma ScaleUp(r: real, p: real)
    requires r >= 1.0 && p >= 0.0
    ensures r * p >= p
  {
    ProductNonNegative(r - 1.0, p);
    assert (r - 1.0) * p == r * p - p;
  }

  /** For a base of at least one, each power is at least one and at most the next. */
  lemma {:induction false} PowStep(r: real, n: nat)
    requires r >= 1.0
    ensures 1.0 <= Pow(r, n) <= Pow(r, n + 1)
  {
    if n > 0 {
      PowStep(r, n - 1);
    }
    assert Pow(r, n + 1) == r * Pow(r, n);
    ScaleUp(r, Pow(r, n));
  }

  /** A base of at least one gives powers that never decrease with the exponent. */
  lemma {:induction false} PowMonotone(r: real, a: nat, b: nat)
    requires r >= 1.0 && a <= b
    ensures Pow(r, a) <= Pow(r, b)
    decreases b - a
  {
    if a < b {
      PowStep(r, a);
      PowMonotone(r, a + 1, b);
    }
  }
}

=== FILE: objective.dfy ===
/**
 The Objective abstraction: a closure over the centre parameters and a
 mini-batch. Its four operations are uninterpreted here; the optimiser only
 ever calls them.
 */
module Objectives {

  import opened ParamDelta

  /**
   A mini-batch: the contiguous slice [start, start + len) of the shuffled
   sample set. Only its position and size are modelled.
   */
  datatype SampleSet = SampleSet(start: nat, len: nat)

  /**
   `objective` is the true cost at `centre + delta`; `quad` the value of the
   local quadratic model at `delta`; `quadGrad` that model's gradient at
   `delta`; `quadHessian(direction, point, s)` the curvature product along
   `direction` at the iterate `point`, with the quadratic value it reports.
   */
  datatype Objective = Objective(
    objective: (Delta, SampleSet) -> real,
    quad: (Delta, SampleSet) -> real,
    quadGrad: (Delta, SampleSet) -> Delta,
    quadHessian: (Delta, Delta, SampleSet) -> (Delta, real))
}

=== FILE: param_delta.dfy ===
/**
 Vectors in parameter space. A delta maps each parameter's identity to a
 dense displacement vector; a key that is absent, or an index past the end
 of a vector, reads as zero. Sums over a delta are taken in ascending key
 order, which over the reals gives the same value as any other order.
 */
module ParamDelta {

  import Numeric

  /** Opaque, stable identity of one learnable parameter vector. */
  type ParamId = nat

  type Vec = seq<real>

  type Delta = map<ParamId, Vec>

  /** A learnable parameter: its identity and the length of its value vector. */
  datatype Param = Param(id: ParamId, size: nat)

  /** Entry `i` of the vector at key `k`, zero when there is none. */
  function Get(d: Delta, k: ParamId, i: int): real {
    if k in d && 0 <= i < |d[k]| then d[k][i] else 0.0
  }

  /** Length of the vector at key `k`, zero when the key is absent. */
  function Len(d: Delta, k: ParamId): nat {
    if k in d then |d[k]| else 0
  }

  function MaxLen(a: nat, b: nat): nat {
    if a >= b then a else b
  }

  function Zeros(n: nat): (v: Vec)
    ensures |v| == n
    ensures forall i :: 0 <= i < n ==> v[i] == 0.0
  {
    seq(n, _ => 0.0)
  }

  /** Every entry of every vector in `d` is zero. */
  predicate IsZero(d: Delta) {
    forall k, i :: k in d && 0 <= i < |d[k]| ==> d[k][i] == 0.0
  }

  /** `d + s * o`, key by key and index by index. */
  function AddScaled(d: Delta, o: Delta, s: real): (r: Delta)
    ensures r.Keys == d.Keys + o.Keys
    ensures forall k :: k in r ==> |r[k]| == MaxLen(Len(d, k), Len(o, k))
    ensures forall k, i {:trigger Get(r, k, i)} :: Get(r, k, i) == Get(d, k, i) + s * Get(o, k, i)
  {
    map k | k in d.Keys + o.Keys :: seq(MaxLen(Len(d, k), Len(o, k)), i => Get(d, k, i) + s * Get(o, k, i))
  }

  /** `d - s * o`, key by key and index by index. */
  function SubScaled(d: Delta, o: Delta, s: real): (r: Delta)
    ensures r.Keys == d.Keys + o.Keys
    ensures forall k, i {:trigger Get(r, k, i)} :: Get(r, k, i) == Get(d, k, i) - s * Get(o, k, i)
  {
    AddScaled(d, o, -s)
  }

  /** `f * d`, keeping every key and every vector length. */
  function Scale(d: Delta, f: real): (r: Delta)
    ensures r.Keys == d.Keys
    ensures forall k :: k in r ==> |r[k]| == |d[k]|
    ensures forall k, i {:trigger Get(r, k, i)} :: Get(r, k, i) == f * Get(d, k, i)
  {
    map k | k in d :: seq(|d[k]|, i => f * Get(d, k, i))
  }

  predicate KeyAtMost(k: ParamId, j: ParamId) {
    k <= j
  }

  /**
   `k` is the least key. The quantifier fires only on `KeyAtMost` terms, so
   that sums over a delta do not instantiate it for every key lookup.
   */
  predicate IsMinKey(keys: set<ParamId>, k: ParamId) {
    k in keys && forall j {:trigger KeyAtMost(k, j)} :: j in keys ==> KeyAtMost(k, j)
  }

  lemma {:induction false} MinKeyExists(keys: set<ParamId>)
    requires keys != {}
    ensures exists k :: IsMinKey(keys, k)
    decreases |keys|
  {
    var x :| x in keys;
    if keys == {x} {
      assert IsMinKey(keys, x);
    } else {
      MinKeyExists(keys - {x});
      var m :| IsMinKey(keys - {x}, m);
      var w := if x < m then x else m;
      forall j | j in keys ensures KeyAtMost(w, j) {
        if j != x {
          assert j in keys - {x} && KeyAtMost(m, j);
        }
      }
      assert IsMinKey(keys, w);
    }
  }

  lemma MinKeyUnique(keys: set<ParamId>)
    ensures forall a, b :: IsMinKey(keys, a) && IsMinKey(keys, b) ==> a == b
  {
    forall a, b | IsMinKey(keys, a) && IsMinKey(keys, b) ensures a == b {
      assert KeyAtMost(a, b) && KeyAtMost(b, a);
    }
  }

  /** The smallest key, which fixes the order in which sums visit a delta. */
  function MinKey(keys: set<ParamId>): (k: ParamId)
    requires keys != {}
    ensures IsMinKey(keys, k)
  {
    MinKeyExists(keys);
    MinKeyUnique(keys);
    var k :| IsMinKey(keys, k); k
  }

  /** Inner product of two vectors over their common length. */
  function VecDot(u: Vec, v: Vec): real {
    if |u| == 0 || |v| == 0 then 0.0 else u[0] * v[0] + VecDot(u[1..], v[1..])
  }

  /** Sum over the keys of `a` of the inner products with `b`; a key absent from `b` adds nothing. */
  function Dot(a: Delta, b: Delta): real
    decreases |a|
  {
    if |a| == 0 then 0.0
    else
      var k := MinKey(a.Keys);
      (if k in b then VecDot(a[k], b[k]) else 0.0) + Dot(a - {k}, b)
  }

  /** Squared Euclidean length of a vector. */
  function VecMag2(v: Vec): real {
    if |v| == 0 then 0.0 else v[0] * v[0] + VecMag2(v[1..])
  }

  /** Squared Euclidean length of a delta: the sum of every entry squared. */
  function MagSquared(d: Delta): real
    decreases |d|
  {
    if |d| == 0 then 0.0
    else
      var k := MinKey(d.Keys);
      VecMag2(d[k]) + MagSquared(d - {k})
  }

  lemma {:induction false} VecMag2Bounds(v: Vec)
    ensures VecMag2(v) >= 0.0
    ensures (forall i :: 0 <= i < |v| ==> v[i] == 0.0) ==> VecMag2(v) == 0.0
    decreases |v|
  {
    if |v| > 0 {
      VecMag2Bounds(v[1..]);
      SquareNonNegative(v[0]);
      if forall i :: 0 <= i < |v| ==> v[i] == 0.0 {
        forall i | 0 <= i < |v[1..]| ensures v[1..][i] == 0.0 {
          assert v[1..][i] == v[i + 1];
        }
      }
    }
  }

  lemma SquareNonNegative(x: real)
    ensures x * x >= 0.0
  {
    if x < 0.0 {
      Numeric.ProductNonNegative(-x, -x);
      assert (-x) * (-x) == x * x;
    } else {
      Numeric.ProductNonNegative(x, x);
    }
  }

  lemma {:induction false} VecMag2IsSelfDot(v: Vec)
    ensures VecMag2(v) == VecDot(v, v)
    decreases |v|
  {
    if |v| > 0 {
      VecMag2IsSelfDot(v[1..]);
    }
  }

  /** A squared length is never negative, and it is zero for a zero delta. */
  lemma {:induction false} MagSquaredBounds(d: Delta)
    ensures MagSquared(d) >= 0.0
    ensures IsZero(d) ==> MagSquared(d) == 0.0
    decreases |d|
  {
    if |d| > 0 {
      var k := MinKey(d.Keys);
      var rest := d - {k};
      MagSquaredBounds(rest);
      VecMag2Bounds(d[k]);
      if IsZero(d) {
        forall j, i | j in rest && 0 <= i < |rest[j]| ensures rest[j][i] == 0.0 {
          assert d[j] == rest[j];
        }
      }
    }
  }

  /** The squared length is the inner product of a delta with itself. */
  lemma MagSquaredIsSelfDot(d: Delta)
    ensures MagSquared(d) == Dot(d, d)
  {
    SubDotIsMagSquared(d, d);
  }

  lemma {:induction false} SubDotIsMagSquared(a: Delta, b: Delta)
    requires forall k :: k in a ==> k in b && b[k] == a[k]
    ensures Dot(a, b) == MagSquared(a)
    decreases |a|
  {
    if |a| > 0 {
      var k := MinKey(a.Keys);
      SubDotIsMagSquared(a - {k}, b);
      VecMag2IsSelfDot(a[k]);
    }
  }

  /** Identities name vectors, so one identity listed twice has one length. */
  predicate ConsistentSizes(params: seq<Param>) {
    forall i, j :: 0 <= i < |params| && 0 <= j < |params| && params[i].id == params[j].id
      ==> params[i].size == params[j].size
  }

  /**
   The zero vector over a learner's parameters: one key per parameter,
   holding zeros.
   */
  function ZeroDelta(params: seq<Param>): (d: Delta)
    ensures d.Keys == set p | p in params :: p.id
    ensures IsZero(d)
    decreases |params|
  {
    if |params| == 0 then map[]
    else
      var last := params[|params| - 1];
      ZeroDelta(params[..|params| - 1])[last.id := Zeros(last.size)]
  }

  /** Each parameter's zero vector has that parameter's length. */
  lemma {:induction false} ZeroDeltaSizes(params: seq<Param>)
    requires ConsistentSizes(params)
    ensures forall i :: 0 <= i < |params| ==> |ZeroDelta(params)[params[i].id]| == params[i].size
    decreases |params|
  {
    if |params| > 0 {
      var init := params[..|params| - 1];
      var last := params[|params| - 1];
      assert ConsistentSizes(init) by {
        forall i, j | 0 <= i < |init| && 0 <= j < |init| && init[i].id == init[j].id
          ensures init[i].size == init[j].size {
          assert init[i] == params[i] && init[j] == params[j];
        }
      }
      ZeroDeltaSizes(init);
      var d := ZeroDelta(params);
      forall i | 0 <= i < |params| ensures |d[params[i].id]| == params[i].size {
        if params[i].id == last.id {
          assert params[i].size == last.size;
        } else {
          assert params[i] == init[i];
        }
      }
    }
  }
}

=== FILE: solver.dfy ===
/**
 The per-mini-batch linear conjugate-gradient solver: lazy initialisation,
 one CG step at a time with the convergence and checkpoint policies, and
 the final choice of the best checkpoint.
 */
module CgSolver {

  import opened Wrappers
  import opened ParamDelta
  import opened Objectives
  import opened TrainerConfig
  import opened Convergence
  import opened Backtracking

  /** What one solver run works against: the configuration, the learner's parameters, the objective and the mini-batch. */
  datatype Context = Context(config: Config, params: seq<Param>, objective: Objective, samples: SampleSet)

  /**
   The solver's state. `solution` and `residual` are absent (nil) until the
   first step initialises them; the checkpoints are the parallel lists
   `backtrackDeltas` and `backtrackValues`; `quadValues` records the
   quadratic value reported after each continuing step.
   */
  datatype Solver = Solver(
    solution: Option<Delta>,
    residual: Option<Delta>,
    projectedResidual: Delta,
    residualMag2: real,
    hessianProduct: Delta,
    justBacktracked: bool,
    backtrackCount: nat,
    backtrackDeltas: seq<Delta>,
    backtrackValues: seq<real>,
    startObjective: real,
    quadValues: seq<real>)

  /** A fresh solver, warm-started from the previous mini-batch's solution when there is one. */
  function NewSolver(warmStart: Option<Delta>): (st: Solver)
    ensures st.solution == warmStart && st.residual.None?
    ensures !st.justBacktracked && st.backtrackCount == 0
    ensures st.backtrackDeltas == [] && st.backtrackValues == [] && st.quadValues == []
  {
    Solver(warmStart, None, map[], 0.0, map[], false, 0, [], [], 0.0, [])
  }

  predicate Initialized(st: Solver) {
    st.solution.Some? && st.residual.Some?
  }

  /**
   Runs once, when no residual exists yet. A carried-over solution is kept;
   otherwise the solution starts at zero over the learner's parameters.
   The residual is minus the model gradient at the solution, the search
   direction a copy of it, and the start objective the true cost at the
   empty delta.
   */
  function InitializeIfNeeded(ctx: Context, st: Solver): (r: Solver)
    ensures Initialized(r)
    ensures st.solution.Some? ==> r.solution == st.solution
    ensures st.solution.None? ==> r.solution == Some(ZeroDelta(ctx.params))
    ensures st.residual.Some? ==> r == st.(solution := r.solution)
    ensures st.residual.None? ==>
              var g := ctx.objective.quadGrad(r.solution.value, ctx.samples);
              && r.residual.value.Keys == g.Keys
              && (forall k, i :: Get(r.residual.value, k, i) == -Get(g, k, i))
              && r.projectedResidual == r.residual.value
              && r.residualMag2 == MagSquared(r.residual.value)
              && r.startObjective == ctx.objective.objective(map[], ctx.samples)
              && r.hessianProduct == ctx.objective.quadHessian(r.projectedResidual, r.solution.value, ctx.samples).0
    ensures r.quadValues == st.quadValues && r.justBacktracked == st.justBacktracked
    ensures r.backtrackCount == st.backtrackCount
    ensures r.backtrackDeltas == st.backtrackDeltas && r.backtrackValues == st.backtrackValues
  {
    var st1 := if st.solution.None? then st.(solution := Some(ZeroDelta(ctx.params))) else st;
    if st1.residual.Some? then st1
    else
      var x := st1.solution.value;
      var residual := Scale(ctx.objective.quadGrad(x, ctx.samples), -1.0);
      var direction := residual;
      var hessian := ctx.objective.quadHessian(direction, x, ctx.samples);
      st1.(residual := Some(residual),
           projectedResidual := direction,
           residualMag2 := MagSquared(residual),
           startObjective := ctx.objective.objective(map[], ctx.samples),
           hessianProduct := hessian.0)
  }

  /** CG cannot continue: zero curvature along the direction, or a zero residual. */
  predicate Exhausted(st: Solver) {
    Dot(st.projectedResidual, st.hessianProduct) == 0.0 || st.residualMag2 == 0.0
  }

  /** A quotient times its divisor gives back the dividend. */
  lemma QuotientTimesDivisor(q: real, n: real, d: real)
    requires d != 0.0 && q == n / d
    ensures q * d == n
  {
  }

  /** The scalars and vectors produced by one linear-CG update. */
  datatype CgVectors = CgVectors(stepSize: real, solution: Delta, residual: Delta, residualMag2: real, beta: real, direction: Delta)

  /**
   One linear-CG update of solution `x`, residual `r` (with `|r|^2 = rMag2`)
   and direction `p`, given the curvature product `hp` and the curvature
   `p . Hp`, computed once by the caller: with alpha = |r|^2 / (p . Hp) and beta = |r_new|^2 / |r|^2, the solution moves
   by alpha p, the residual by -alpha Hp, and the direction becomes
   r_new + beta p.
   */
  function CgVectorUpdate(x: Delta, r: Delta, rMag2: real, p: Delta, hp: Delta, curvature: real): (v: CgVectors)
    requires curvature != 0.0 && rMag2 != 0.0
    ensures v.stepSize == rMag2 / curvature && v.stepSize * curvature == rMag2
    ensures v.solution == AddScaled(x, p, v.stepSize)
    ensures v.residual == SubScaled(r, hp, v.stepSize)
    ensures v.residualMag2 == MagSquared(v.residual)
    ensures v.beta == v.residualMag2 / rMag2
    ensures v.direction == AddScaled(v.residual, p, v.beta)
  {
    var stepSize := rMag2 / curvature;
    QuotientTimesDivisor(stepSize, rMag2, curvature);
    var residual := SubScaled(r, hp, stepSize);
    var residualMag2 := MagSquared(residual);
    var beta := residualMag2 / rMag2;
    CgVectors(stepSize, AddScaled(x, p, stepSize), residual, residualMag2, beta, AddScaled(residual, p, beta))
  }

  /** The update entry by entry, for every key and index. */
  lemma CgVectorUpdateEntries(x: Delta, r: Delta, rMag2: real, p: Delta, hp: Delta, curvature: real, k: ParamId, i: int)
    requires curvature != 0.0 && rMag2 != 0.0
    ensures var v := CgVectorUpdate(x, r, rMag2, p, hp, curvature);
            && Get(v.solution, k, i) == Get(x, k, i) + v.stepSize * Get(p, k, i)
            && Get(v.residual, k, i) == Get(r, k, i) - v.stepSize * Get(hp, k, i)
            && Get(v.direction, k, i) == v.beta * Get(p, k, i) + Get(v.residual, k, i)
  {
  }

  /**
   A continuing step: the CG update, then the curvature product along the
   new direction at the new solution, whose reported quadratic value is
   appended.
   */
  function CgUpdate(ctx: Context, st: Solver): (r: Solver)
    requires Initialized(st) && !Exhausted(st)
    ensures Initialized(r)
    ensures var v := CgVectorUpdate(st.solution.value, st.residual.value, st.residualMag2, st.projectedResidual, st.hessianProduct,
                                     Dot(st.projectedResidual, st.hessianProduct));
            && r.solution == Some(v.solution) && r.residual == Some(v.residual)
            && r.residualMag2 == v.residualMag2 && r.projectedResidual == v.direction
    ensures var h := ctx.objective.quadHessian(r.projectedResidual, r.solution.value, ctx.samples);
            r.hessianProduct == h.0 && r.quadValues == st.quadValues + [h.1]
    ensures !r.justBacktracked
    ensures r.backtrackCount == st.backtrackCount && r.startObjective == st.startObjective
    ensures r.backtrackDeltas == st.backtrackDeltas && r.backtrackValues == st.backtrackValues
  {
    var v := CgVectorUpdate(st.solution.value, st.residual.value, st.residualMag2, st.projectedResidual, st.hessianProduct,
                            Dot(st.projectedResidual, st.hessianProduct));
    var h := ctx.objective.quadHessian(v.direction, v.solution, ctx.samples);
    st.(justBacktracked := false,
        solution := Some(v.solution),
        residual := Some(v.residual),
        residualMag2 := v.residualMag2,
        projectedResidual := v.direction,
        hessianProduct := h.0,
        quadValues := st.quadValues + [h.1])
  }

  /** The solution, reading a nil one as the empty delta. */
  function SolutionOrEmpty(st: Solver): Delta {
    st.solution.GetOr(map[])
  }

  /**
   Records a checkpoint when the iteration count has reached the current
   threshold `int(rate^count)`, advancing `count` to the first exponent whose
   threshold lies beyond the iterations done. Otherwise nothing changes.
   */
  function UpdateBacktracking(ctx: Context, st: Solver): (r: Solver)
    requires RateTerminates(ctx.config)
    ensures var rate := BacktrackRate(ctx.config);
            Threshold(rate, r.backtrackCount) > |st.quadValues|
    ensures st.backtrackCount <= r.backtrackCount
    ensures forall j :: st.backtrackCount <= j < r.backtrackCount ==> Threshold(BacktrackRate(ctx.config), j) <= |st.quadValues|
    ensures var due := Threshold(BacktrackRate(ctx.config), st.backtrackCount) <= |st.quadValues|;
            var x := SolutionOrEmpty(st);
            && (due ==> r.backtrackDeltas == st.backtrackDeltas + [x]
                        && r.backtrackValues == st.backtrackValues + [ctx.objective.objective(x, ctx.samples)]
                        && r.justBacktracked)
            && (!due ==> r == st)
    ensures r == st.(backtrackCount := r.backtrackCount, backtrackDeltas := r.backtrackDeltas,
                     backtrackValues := r.backtrackValues, justBacktracked := r.justBacktracked)
  {
    var rate := BacktrackRate(ctx.config);
    var done := |st.quadValues|;
    if Threshold(rate, st.backtrackCount) > done then st
    else
      var count := NextExponent(rate, st.backtrackCount, done);
      var x := SolutionOrEmpty(st);
      st.(backtrackCount := count,
          backtrackDeltas := st.backtrackDeltas + [x],
          backtrackValues := st.backtrackValues + [ctx.objective.objective(x, ctx.samples)],
          justBacktracked := true)
  }

  /**
   The solver's bookkeeping agrees with the objective it runs against: the
   checkpoint lists are parallel and each value is the true cost of its
   delta, the cached squared residual length matches the residual, and a
   just-taken checkpoint is the current solution.
   */
  predicate Consistent(ctx: Context, st: Solver) {
    && |st.backtrackDeltas| == |st.backtrackValues|
    && (forall i :: 0 <= i < |st.backtrackValues| ==>
          st.backtrackValues[i] == ctx.objective.objective(st.backtrackDeltas[i], ctx.samples))
    && (st.residual.Some? ==> st.residualMag2 == MagSquared(st.residual.value))
    && (st.justBacktracked ==>
          && st.solution.Some?
          && |st.backtrackDeltas| > 0
          && st.backtrackDeltas[|st.backtrackDeltas| - 1] == st.solution.value)
  }

  lemma InitializeKeepsConsistent(ctx: Context, st: Solver)
    requires Consistent(ctx, st)
    ensures Consistent(ctx, InitializeIfNeeded(ctx, st))
  {
  }

  lemma CgUpdateKeepsConsistent(ctx: Context, st: Solver)
    requires Initialized(st) && !Exhausted(st)
    requires Consistent(ctx, st)
    ensures Consistent(ctx, CgUpdate(ctx, st))
  {
  }

  lemma UpdateBacktrackingKeepsConsistent(ctx: Context, st: Solver)
    requires RateTerminates(ctx.config)
    requires Consistent(ctx, st) && st.solution.Some?
    ensures Consistent(ctx, UpdateBacktracking(ctx, st))
  {
  }

  /**
   One CG step; `more` says whether another step is wanted. An exhausted
   solver stops with its state as initialised. Otherwise the CG update is
   applied and exactly one quadratic value is appended, and the step
   continues exactly when the convergence test does not fire; only then is
   the checkpoint schedule consulted.
   */
  method Step(ctx: Context, st: Solver) returns (more: bool, next: Solver)
    requires WindowNonNegative(ctx.config) && RateTerminates(ctx.config)
    ensures var s0 := InitializeIfNeeded(ctx, st);
            Exhausted(s0) ==> !more && next == s0
    ensures var s0 := InitializeIfNeeded(ctx, st);
            !Exhausted(s0) ==>
              && |next.quadValues| == |st.quadValues| + 1
              && (more <==> !Converging(ctx.config, next.quadValues, next.startObjective))
    ensures Initialized(next)
    ensures |st.quadValues| <= |next.quadValues| && next.quadValues[..|st.quadValues|] == st.quadValues
    ensures st.backtrackCount <= next.backtrackCount
    ensures more ==> Threshold(BacktrackRate(ctx.config), next.backtrackCount) > |next.quadValues|
    ensures !more ==> next.backtrackDeltas == st.backtrackDeltas && next.backtrackValues == st.backtrackValues
    ensures var s0 := InitializeIfNeeded(ctx, st);
            !Exhausted(s0) && !more ==> next == CgUpdate(ctx, s0)
    ensures var s0 := InitializeIfNeeded(ctx, st);
            more ==> !Exhausted(s0) && next == UpdateBacktracking(ctx, CgUpdate(ctx, s0))
    ensures Consistent(ctx, st) ==> Consistent(ctx, next)
  {
    var s0 := InitializeIfNeeded(ctx, st);
    if Consistent(ctx, st) {
      InitializeKeepsConsistent(ctx, st);
    }
    if Exhausted(s0) {
      return false, s0;
    }
    var s1 := CgUpdate(ctx, s0);
    if Consistent(ctx, s0) {
      CgUpdateKeepsConsistent(ctx, s0);
    }
    WindowNonNegativeAlways(ctx.config, s1.quadValues, s1.startObjective);
    if Converging(ctx.config, s1.quadValues, s1.startObjective) {
      return false, s1;
    }
    if Consistent(ctx, s1) {
      UpdateBacktrackingKeepsConsistent(ctx, s1);
    }
    more, next := true, UpdateBacktracking(ctx, s1);
  }

  /** `i` holds the least value of `values`, and no earlier index holds one as small. */
  predicate IsFirstMin(values: seq<real>, i: int) {
    && 0 <= i < |values|
    && (forall j :: 0 <= j < |values| ==> values[i] <= values[j])
    && (forall j :: 0 <= j < i ==> values[i] < values[j])
  }

  /**
   The scan over `values` from index `i`, `best` being the index chosen so
   far: an index replaces it only when its value is strictly smaller.
   */
  function ScanFrom(values: seq<real>, i: nat, best: nat): (b: nat)
    requires best < i <= |values| && IsFirstMin(values[..i], best)
    ensures IsFirstMin(values, b)
    decreases |values| - i
  {
    if i == |values| then
      assert values[..i] == values;
      best
    else
      var next := if values[i] < values[best] then i else best;
      assert values[..i + 1] == values[..i] + [values[i]];
      ScanFrom(values, i + 1, next)
  }

  /** The earliest index of a least value: the first entry seeds the scan. */
  function FirstMin(values: seq<real>): (i: nat)
    requires |values| > 0
    ensures IsFirstMin(values, i)
  {
    ScanFrom(values, 1, 0)
  }

  /**
   The best known solution. Unless a checkpoint was just taken, the current
   solution is recorded first, with its true objective, and the flag is set
   so that a second call records nothing. The result is the checkpoint with
   the least value, the earliest one on ties; there is none only when no
   checkpoint exists.
   */
  function Best(ctx: Context, st: Solver): (r: (Solver, Option<Delta>))
    requires |st.backtrackValues| <= |st.backtrackDeltas|
    ensures r.0.justBacktracked
    ensures st.justBacktracked ==> r.0 == st
    ensures var x := SolutionOrEmpty(st);
            !st.justBacktracked ==>
              r.0 == st.(backtrackDeltas := st.backtrackDeltas + [x],
                         backtrackValues := st.backtrackValues + [ctx.objective.objective(x, ctx.samples)],
                         justBacktracked := true)
    ensures r.1.Some? <==> |r.0.backtrackValues| > 0
    ensures r.1.Some? ==>
              exists i :: IsFirstMin(r.0.backtrackValues, i) && i < |r.0.backtrackDeltas| && r.1.value == r.0.backtrackDeltas[i]
  {
    var st1 :=
      if st.justBacktracked then st
      else
        var x := SolutionOrEmpty(st);
        st.(backtrackDeltas := st.backtrackDeltas + [x],
            backtrackValues := st.backtrackValues + [ctx.objective.objective(x, ctx.samples)],
            justBacktracked := true);
    if |st1.backtrackValues| == 0 then (st1, None)
    else (st1, Some(st1.backtrackDeltas[FirstMin(st1.backtrackValues)]))
  }
}

=== FILE: solver_properties.dfy ===
/**
 What the solver keeps true across its steps: the checkpoint lists stay
 parallel and each value is the true cost of its delta, the cached squared
 residual length matches the residual, and a just-taken checkpoint is the
 current solution. From these, the delta chosen at the end is never worse
 on the mini-batch than the solution the iteration stopped at.
 */
module SolverProperties {

  import opened Wrappers
  import opened ParamDelta
  import opened CgSolver

  lemma NewSolverConsistent(ctx: Context, warmStart: Option<Delta>)
    ensures Consistent(ctx, NewSolver(warmStart))
  {
  }

  /** Initialisation happens at most once: a second call changes nothing. */
  lemma InitializeOnce(ctx: Context, st: Solver)
    ensures var s1 := InitializeIfNeeded(ctx, st);
            InitializeIfNeeded(ctx, s1) == s1
  {
  }

  /**
   After `Best`, the chosen delta costs no more on the mini-batch than the
   current solution, nor than any checkpoint.
   */
  lemma BestNoWorseThanCheckpoints(ctx: Context, st: Solver)
    requires Consistent(ctx, st) && st.solution.Some?
    ensures var r := Best(ctx, st);
            && r.1.Some?
            && ctx.objective.objective(r.1.value, ctx.samples) <= ctx.objective.objective(st.solution.value, ctx.samples)
            && (forall j :: 0 <= j < |r.0.backtrackDeltas| ==>
                  ctx.objective.objective(r.1.value, ctx.samples) <= ctx.objective.objective(r.0.backtrackDeltas[j], ctx.samples))
  {
    var r := Best(ctx, st);
    BestKeepsConsistent(ctx, st);
    var i :| IsFirstMin(r.0.backtrackValues, i) && i < |r.0.backtrackDeltas| && r.1.value == r.0.backtrackDeltas[i];
    var last := |r.0.backtrackDeltas| - 1;
    assert r.0.backtrackDeltas[last] == st.solution.value;
  }

  /** `Best` keeps the bookkeeping consistent. */
  lemma BestKeepsConsistent(ctx: Context, st: Solver)
    requires Consistent(ctx, st) && st.solution.Some?
    ensures Consistent(ctx, Best(ctx, st).0)
  {
  }

  /** A second `Best` records nothing and chooses the same delta. */
  lemma BestTwice(ctx: Context, st: Solver)
    requires |st.backtrackValues| <= |st.backtrackDeltas|
    ensures var r := Best(ctx, st);
            Best(ctx, r.0) == r
  {
  }
}

=== FILE: training.dfy ===
/**
 The trainer's outer loop over one epoch: the samples are cut into
 mini-batches, and on each one the damping learner builds the damped
 objective, the CG solver steps until it stops, the best checkpoint is
 chosen, and the damping coefficient is adapted. The solution the solver
 stopped at warm-starts the next mini-batch.
 */
module Training {

  import opened Wrappers
  import opened ParamDelta
  import opened Objectives
  import opened TrainerConfig
  import opened Convergence
  import opened Damping
  import opened MiniBatches
  import opened CgSolver
  import opened SolverProperties

  /**
   Steps the solver until a step asks to stop. `fuel` bounds the number of
   further steps after the first: it is the iteration limit a terminating
   model needs, not the user's stop request. `more` is the last step's
   answer; when it is false the solver is exhausted or has converged.
   */
  method RunSolver(ctx: Context, st: Solver, fuel: nat) returns (more: bool, r: Solver)
    requires WindowNonNegative(ctx.config) && RateTerminates(ctx.config)
    ensures Initialized(r)
    ensures LookBackInRange(ctx.config, r.quadValues, r.startObjective)
    ensures !more ==> Exhausted(r) || Converging(ctx.config, r.quadValues, r.startObjective)
    ensures |st.quadValues| <= |r.quadValues| && r.quadValues[..|st.quadValues|] == st.quadValues
    ensures st.backtrackCount <= r.backtrackCount
    ensures Consistent(ctx, st) ==> Consistent(ctx, r)
  {
    more, r := Step(ctx, st);
    WindowNonNegativeAlways(ctx.config, r.quadValues, r.startObjective);
    var left := fuel;
    while more && left > 0
      invariant Initialized(r)
      invariant LookBackInRange(ctx.config, r.quadValues, r.startObjective)
      invariant !more ==> Exhausted(r) || Converging(ctx.config, r.quadValues, r.startObjective)
      invariant |st.quadValues| <= |r.quadValues| && r.quadValues[..|st.quadValues|] == st.quadValues
      invariant st.backtrackCount <= r.backtrackCount
      invariant Consistent(ctx, st) ==> Consistent(ctx, r)
      decreases left
    {
      var previous := r;
      more, r := Step(ctx, previous);
      WindowNonNegativeAlways(ctx.config, r.quadValues, r.startObjective);
      PrefixOfPrefix(st.quadValues, previous.quadValues, r.quadValues);
      left := left - 1;
    }
  }

  /** A prefix of a prefix is a prefix. */
  lemma PrefixOfPrefix(a: seq<real>, b: seq<real>, c: seq<real>)
    requires |a| <= |b| <= |c| && a == b[..|a|] && b == c[..|b|]
    ensures a == c[..|a|]
  {
    assert c[..|b|][..|a|] == c[..|a|];
  }

  /** What one mini-batch leaves behind. */
  datatype BatchResult = BatchResult(learner: DampingLearner, chosen: Delta, solution: Delta)

  /** The coefficient a mini-batch starts from: the default replaces zero. */
  function StartingCoeff(l: DampingLearner): real {
    if l.dampingCoeff == 0.0 then DefaultDampingCoeff else l.dampingCoeff
  }

  /**
   One mini-batch: `wrapped` is the undamped objective the wrapped learner
   produces for it. The chosen delta is the best checkpoint; the solution is
   where the solver stopped, and warm-starts the next mini-batch.
   */
  method TrainBatch(config: Config, params: seq<Param>, l: DampingLearner, wrapped: Objective,
                    subset: SampleSet, lastSolution: Option<Delta>, fuel: nat) returns (r: BatchResult)
    requires WindowNonNegative(config) && RateTerminates(config)
    ensures r.learner.lastObjective == Some(wrapped)
    ensures wrapped.objective(r.chosen, subset) <= wrapped.objective(r.solution, subset)
    ensures wrapped.quad(r.chosen, subset) != wrapped.objective(map[], subset) ==>
              r.learner.dampingCoeff == StartingCoeff(l) * 3.0 / 2.0
    ensures wrapped.quad(r.chosen, subset) == wrapped.objective(map[], subset) ==>
              r.learner.dampingCoeff == StartingCoeff(l)
  {
    var made := MakeObjective(l, wrapped);
    var ctx := Context(config, params, AsObjective(made.1), subset);
    var start := NewSolver(lastSolution);
    NewSolverConsistent(ctx, lastSolution);
    var _, solver := RunSolver(ctx, start, fuel);
    var best := Best(ctx, solver);
    BestNoWorseThanCheckpoints(ctx, solver);
    r := BatchResult(Adjust(made.0, best.1.value, subset), best.1.value, solver.solution.value);
  }

  /**
   One epoch over `total` samples in the shuffled order: one mini-batch per
   slice of `Batches(total, batchSize)`, in order, each warm-started from
   the previous one's solution. `wrapped(j)` is the wrapped learner's
   objective for mini-batch `j`. With a non-negative starting coefficient
   damping never decreases, because the trust ratio the code computes never
   lies above 0.75.
   */
  method TrainEpoch(config: Config, params: seq<Param>, l: DampingLearner, wrapped: nat -> Objective,
                    total: nat, lastSolution: Option<Delta>, fuel: nat) returns (learner: DampingLearner, solution: Option<Delta>)
    requires total == 0 || config.batchSize > 0
    requires WindowNonNegative(config) && RateTerminates(config)
    requires l.dampingCoeff >= 0.0
    ensures learner.dampingCoeff >= l.dampingCoeff
    ensures total > 0 ==> learner.dampingCoeff > 0.0 && solution.Some?
    ensures total == 0 ==> learner == l && solution == lastSolution
  {
    var batches := Batches(total, config.batchSize);
    learner, solution := l, lastSolution;
    var j := 0;
    while j < |batches|
      invariant 0 <= j <= |batches|
      invariant learner.dampingCoeff >= l.dampingCoeff
      invariant j > 0 ==> learner.dampingCoeff > 0.0 && solution.Some?
      invariant j == 0 ==> learner == l && solution == lastSolution
    {
      var result := TrainBatch(config, params, learner, wrapped(j), batches[j], solution, fuel);
      learner, solution := result.learner, Some(result.solution);
      j := j + 1;
    }
  }
}

=== FILE: wrappers.dfy ===
/** Optional values: a Go reference or map that may be nil. */
module Wrappers {

  datatype Option<+T> = None | Some(value: T) {

    /** The wrapped value, or `default` when there is none. */
    function GetOr(default: T): T {
      match this
      case Some(v) => v
      case None => default
    }
  }
}
